=== FILE: README.md ===
# ksql plan-node logic in Dafny

This project models the plan-node logic of ksql's `SchemaKStream`. A `SchemaKStream` is
one node of a streaming query's physical plan. It carries an output schema, a key field
(possibly null), an operator kind and its upstream nodes. The class builds the FILTER,
PROJECT, JOIN (five variants) and REKEY nodes, and the grouped stream that `groupBy`
returns. The other kinds in `PlanNode.Kind` appear only so that the dump can print them;
`into` returns its node unchanged. It also holds the small per-record functions that the Kafka Streams operators
are wrapped with:

- the join value merge (`KsqlValueJoiner`);
- the rekey filter, key selector and ROWKEY update;
- the sink's key-column stripping (`into`);
- the group-by null filter.

The model keeps the metadata of each builder and these per-record functions. It drops
the Kafka Streams objects that they wrap.

Layout:

- `types.dfy` (`Types`): nullable values (`Option`), the exceptions the code can raise
  (`Result`/`PlanError`), rows, records, fields, schemas, qualified names and the three
  expression shapes the key logic tells apart (`Deref`, `QName`, `Other`).
- `collaborators.dfy` (`Collaborators`): the helpers the class calls whose code is not
  part of this model. Each one is a field of function type, or an arbitrary int for
  `ROWKEY_NAME_INDEX`, so every proof holds for any behaviour of the helper:
  - `SchemaUtil.matchFieldName`, `getFieldNameWithNoAlias`, `getFieldIndexByName`,
    `getSchemaDefinitionString` and `ROWKEY_NAME_INDEX`;
  - `Expression.toString`;
  - the type `CodeGenRunner` gives an expression;
  - `GroupByMapper.keyNameFor`;
  - `Object.toString` of a column value.
- `value_joiner.dfy` (`KsqlValueJoiner`): the join value merge.
- `selection.dfy` (`Selection`): projection key resolution, batch compilation and the
  projection schema.
- `plan_node.dfy` (`PlanNode`): the node datatype, the operator kinds and
  `getExecutionPlan`, with a closed form of the dump.
- `schema_kstream.dfy` (`SchemaKStream`): `filter`, `select`, the join builders,
  `selectKey` with its per-record lambdas, and the `into` row mapper.
- `group_by.dfy` (`GroupBy`): `fieldNameFromExpression`, `rekeyRequired` and `groupBy`.

Behaviour of the code worth knowing before reading the model:

- A keyed stream grouped by one expression that is not a column reference makes the
  code throw a `NullPointerException`, because `fieldNameFromExpression` returns null and
  `.equals` is called on it. `GroupBy.RekeyRequired` and `GroupBy.GroupBy` return
  `Err(NullPointer(..))`. The corrected decision, a repartition, is modelled next to them
  (see Findings).
- Column references are matched differently in two places. Projection key resolution
  matches a qualified name on its last part. The repartition decision compares the whole
  dotted name. The model keeps both behaviours (`GroupBy.QualifiedReferenceForcesRepartition`).
- The key a projection keeps takes the select item's name (`toName`), not the input key's
  name, and the model does the same.

## Model

| member | source | states |
|---|---|---|
| `KsqlValueJoiner.Apply` | ksql-engine/src/main/java/io/confluent/ksql/structured/SchemaKStream.java:567-588 | The merged row is the left side then the right side: a present side contributes its own columns, a missing side one null per field of its schema. Reading each side back is `KsqlValueJoiner.ApplySplits`. |
| `KsqlValueJoiner.ApplySplits` | ksql-engine/src/main/java/io/confluent/ksql/structured/SchemaKStream.java:566-588 | Splitting the merged row at the left width gives back each side: a present side's columns, or one null per schema field for a missing side. |
| `KsqlValueJoiner.LeftPresentRightMissing` | ksql-engine/src/main/java/io/confluent/ksql/structured/SchemaKStream.java:567-588 | With the left row present and the right missing, the result has length \|left\| + \|rightSchema\|, starts with the left row and ends in nulls only. |
| `KsqlValueJoiner.LeftMissingRightPresent` | ksql-engine/src/main/java/io/confluent/ksql/structured/SchemaKStream.java:567-588 | With the left row missing, the result starts with \|leftSchema\| nulls and ends with the right row. |
| `KsqlValueJoiner.NullFillIsSymmetric` | ksql-engine/src/main/java/io/confluent/ksql/structured/SchemaKStream.java:567-588 | Swapping sides and schemas in a one-sided join event rotates the merged row: null filling treats both sides alike. |
| `KsqlValueJoiner.BothPresentRoundTrip` | ksql-engine/src/main/java/io/confluent/ksql/structured/SchemaKStream.java:567-582 | When both sides are present, each input row can be read back from the merged row. |
| `Selection.FirstReference` | ksql-engine/src/main/java/io/confluent/ksql/structured/SchemaKStream.java:185-212 | The scan finds nothing iff no item from position i on references the key. Otherwise it returns `Field(name_j, j, keyType)` for the least such j. |
| `Selection.FindKeyField` | ksql-engine/src/main/java/io/confluent/ksql/structured/SchemaKStream.java:177-213 | A null key gives a null key. A synthetic key (index -1) is returned unchanged. Otherwise the result is the first referencing item, renamed to the item's name at the item's position with the key's type, or null when no item references the key. |
| `Selection.FindKeyFieldIsFirst` | ksql-engine/src/main/java/io/confluent/ksql/structured/SchemaKStream.java:185-212 | If item j references the key and no earlier item does, the resolved key is exactly `Field(name_j, j, keyType)`. |
| `Selection.CompileExpressions` | ksql-engine/src/main/java/io/confluent/ksql/structured/SchemaKStream.java:226-233 | Compilation succeeds iff every expression compiles. On success there is one type per expression, in order. On failure the error names the first expression that does not compile. |
| `Selection.BuildSchema` | ksql-engine/src/main/java/io/confluent/ksql/structured/SchemaKStream.java:215-224 | The schema has one field per select item, in select order, with the item's name, its position as index, and its compiled type. |
| `SchemaKStream.Filter` | ksql-engine/src/main/java/io/confluent/ksql/structured/SchemaKStream.java:129-145 | Fails iff the predicate does not compile. Otherwise it builds a FILTER node with the same schema and key and the single upstream `[this]`. |
| `SchemaKStream.Select` | ksql-engine/src/main/java/io/confluent/ksql/structured/SchemaKStream.java:147-175 | Fails iff some select expression does not compile. Otherwise it builds a PROJECT node over `[this]` whose fields match the items one to one (name, position, compiled type) and whose key is the one findKeyField resolves. |
| `SchemaKStream.SelectAfterFilter` | ksql-engine/src/main/java/io/confluent/ksql/structured/SchemaKStream.java:129-160 | A projection over a filter node succeeds exactly when the projection over the unfiltered node does. It has the same schema and the same key. |
| `SchemaKStream.SelectedKeyBecomesKey` | ksql-engine/src/main/java/io/confluent/ksql/structured/SchemaKStream.java:177-212 | When item j is the first to reference a real key, the projection's key is `Field(name_j, j, keyType)`. |
| `SchemaKStream.UnselectedKeyIsDropped` | ksql-engine/src/main/java/io/confluent/ksql/structured/SchemaKStream.java:185-212 | When no item references a real key, the projection has no key. |
| `SchemaKStream.ProjectionKeepsSelectedKey` | ksql-engine/src/main/java/io/confluent/ksql/structured/SchemaKStream.java:147-224 | Projecting `[ROWKEY, ORDERID, AMOUNT]` keyed by ROWKEY onto `[ORDERID, ROWKEY]` gives schema `[ORDERID@0, ROWKEY@1]` with key `ROWKEY@1`. |
| `SchemaKStream.ProjectionWithoutKeyHasNoKey` | ksql-engine/src/main/java/io/confluent/ksql/structured/SchemaKStream.java:185-212 | Projecting the same input onto `[ORDERID]` alone gives no key. |
| `SchemaKStream.JoinNode` | ksql-engine/src/main/java/io/confluent/ksql/structured/SchemaKStream.java:249-390 | Every join variant builds a JOIN node with the caller's join schema and join key, whose upstreams are left then right. |
| `SchemaKStream.JoinValues` | ksql-engine/src/main/java/io/confluent/ksql/structured/SchemaKStream.java:256-261 | Every join merges with a joiner built from the left node's schema and the right node's schema: the left row or one null per left-schema field, then the right row or one null per right-schema field. |
| `SchemaKStream.UnmatchedLeftRowIsPadded` | ksql-engine/src/main/java/io/confluent/ksql/structured/SchemaKStream.java:256-261 | A left-join event with no right match yields the left row followed by one null per field of the right node's schema. |
| `SchemaKStream.JoinPlanListsLeftThenRight` | ksql-engine/src/main/java/io/confluent/ksql/structured/SchemaKStream.java:506-520 | A join node dumps its JOIN line, then the left input's dump, then the right input's dump, each one tab deeper. |
| `SchemaKStream.SelectKey` | ksql-engine/src/main/java/io/confluent/ksql/structured/SchemaKStream.java:394-421 | If the current key has the new key's name, the node itself is returned. Otherwise the result is a REKEY node with the same schema, keyed by the new field, over `[this]`. |
| `SchemaKStream.SelectKeyIdempotent` | ksql-engine/src/main/java/io/confluent/ksql/structured/SchemaKStream.java:394-397 | Rekeying twice on the same field gives the same node as rekeying once. |
| `SchemaKStream.ExtractColumn` | ksql-engine/src/main/java/io/confluent/ksql/structured/SchemaKStream.java:423-427 | Returns the column at the new key name's schema position, and throws iff that position is outside the row. |
| `SchemaKStream.RekeyRecord` | ksql-engine/src/main/java/io/confluent/ksql/structured/SchemaKStream.java:398-427 | A record with a null value or a null key column is dropped. A record whose value and key column are non-null is kept, unless the ROWKEY write is out of range. It throws exactly when the value is non-null and the key column position is outside the row, or when the filter keeps the record, updateRowKey is set and the ROWKEY position is outside the row. A kept record gets the key column's text as its key. With updateRowKey the ROWKEY column holds that key and every other column is unchanged; without it the row is unchanged. |
| `SchemaKStream.Survivors` | ksql-engine/src/main/java/io/confluent/ksql/structured/SchemaKStream.java:398-408 | Every listed position is inside the run, and its record comes out of the rekeyed stream. |
| `SchemaKStream.SurvivorsComplete` | ksql-engine/src/main/java/io/confluent/ksql/structured/SchemaKStream.java:398-408 | Every position whose record comes out is listed, and the list is strictly increasing. |
| `SchemaKStream.RekeyRecords` | ksql-engine/src/main/java/io/confluent/ksql/structured/SchemaKStream.java:398-427 | A run throws iff some record in it throws. |
| `SchemaKStream.RekeyRunStopsAtFirstError` | ksql-engine/src/main/java/io/confluent/ksql/structured/SchemaKStream.java:398-427 | A throwing run fails with the error of its first throwing record. |
| `SchemaKStream.RekeyRecordsListsSurvivors` | ksql-engine/src/main/java/io/confluent/ksql/structured/SchemaKStream.java:398-427 | A run that does not throw emits, in input order, exactly the re-keyed records of the surviving positions. |
| `SchemaKStream.RekeyKeepsExactlyFilteredRecords` | ksql-engine/src/main/java/io/confluent/ksql/structured/SchemaKStream.java:398-402 | In a run that does not throw, a record survives iff its value is non-null and its key column is non-null. |
| `SchemaKStream.RekeyedRecordsAreKeyed` | ksql-engine/src/main/java/io/confluent/ksql/structured/SchemaKStream.java:398-408 | In a run that does not throw, every emitted record has a value and a key, and with updateRowKey its ROWKEY column equals its key. A run of tombstones emits nothing. |
| `SchemaKStream.KeptIndices` | ksql-engine/src/main/java/io/confluent/ksql/structured/SchemaKStream.java:118-122 | Every listed position is below the row length and outside the key indexes. |
| `SchemaKStream.KeptIndicesComplete` | ksql-engine/src/main/java/io/confluent/ksql/structured/SchemaKStream.java:118-122 | Every position outside the key indexes is listed, in strictly increasing order. |
| `SchemaKStream.StripKeyColumns` | ksql-engine/src/main/java/io/confluent/ksql/structured/SchemaKStream.java:112-124 | A null row maps to null. A non-null row keeps exactly the columns at the kept positions, in their original order. |
| `SchemaKStream.KeepAllIsIdentity` | ksql-engine/src/main/java/io/confluent/ksql/structured/SchemaKStream.java:112-124 | With no key indexes every position is kept, in order. |
| `PlanNode.ExecutionPlan` | ksql-engine/src/main/java/io/confluent/ksql/structured/SchemaKStream.java:506-520 | The dump is at least as long as the node's own line, `indent + " > [ " + type + " ] Schema: " + def + ".\n"`, and a node without upstreams dumps only that line. The whole text is given by `PlanNode.ExecutionPlanIsPreorderLines`. |
| `PlanNode.DumpStartsWithOwnLine` | ksql-engine/src/main/java/io/confluent/ksql/structured/SchemaKStream.java:506-512 | Whatever the upstreams, the dump begins with the node's own line. |
| `PlanNode.ExecutionPlanIsPreorderLines` | ksql-engine/src/main/java/io/confluent/ksql/structured/SchemaKStream.java:506-520 | The dump is one line per node of the plan tree, in pre-order. The root line is prefixed by the indent. A node at depth d >= 1 is prefixed by a tab, the indent and d-1 tabs (written by its parent's loop), then the indent again and d tabs (its own indent), so the base indent repeats on nested lines. |
| `PlanNode.SubtreeDump` | ksql-engine/src/main/java/io/confluent/ksql/structured/SchemaKStream.java:513-518 | A subtree at depth d, preceded by the tab and parent indent its parent writes, dumps the lines of its pre-order entries. |
| `PlanNode.UpstreamDumps` | ksql-engine/src/main/java/io/confluent/ksql/structured/SchemaKStream.java:513-518 | The loop over the upstream nodes dumps the pre-order lines of each upstream subtree in list order. |
| `PlanNode.LinesAppend` | ksql-engine/src/main/java/io/confluent/ksql/structured/SchemaKStream.java:513-518 | The lines of two entry lists, joined, are the lines of the concatenated list. |
| `PlanNode.LeafDumpsOneLine` | ksql-engine/src/main/java/io/confluent/ksql/structured/SchemaKStream.java:506-512 | A node with no upstreams dumps exactly `indent + " > [ " + type + " ] Schema: " + def + ".\n"`. |
| `GroupBy.FieldNameFromExpression` | ksql-engine/src/main/java/io/confluent/ksql/structured/SchemaKStream.java:429-439 | The result is null iff the expression is not a column reference. A dereference yields its field name. A qualified name yields its parts joined with '.' (`Types.Dotted`: the text of all but the last part, a dot, then the last part), which is longer than its last part when it has a qualifier. That text starts with the first part and ends with the last part, with a dot before it when qualified (`Types.DottedEnds`). |
| `GroupBy.RekeyRequired` | ksql-engine/src/main/java/io/confluent/ksql/structured/SchemaKStream.java:441-449 | Throws a null pointer exception iff the stream is keyed and grouped by one non-column expression. Otherwise it answers "no repartition" exactly when the stream is keyed and grouped by one column reference named like the alias-stripped key. |
| `GroupBy.RekeyRequiredIntended` | ksql-engine/src/main/java/io/confluent/ksql/structured/SchemaKStream.java:441-449 | The corrected decision: repartition unless grouped by the key itself, including on the shape where the code throws. |
| `GroupBy.RekeyRequiredThrowsOnComputedExpression` | ksql-engine/src/main/java/io/confluent/ksql/structured/SchemaKStream.java:447-448 | A keyed stream grouped by `[Other(..)]` makes the code throw, while the corrected decision is a repartition. |
| `GroupBy.RekeyRequiredAgreesWhereDefined` | ksql-engine/src/main/java/io/confluent/ksql/structured/SchemaKStream.java:441-449 | Wherever the code does not throw, it decides as the corrected version does. |
| `GroupBy.Repartition` | ksql-engine/src/main/java/io/confluent/ksql/structured/SchemaKStream.java:469-487 | Fails iff a grouping expression does not compile. Otherwise the key becomes `Field(keyNameFor(exprs), -1, optional string)`, with the same schema and upstream `[this]`. |
| `GroupBy.GroupBy` | ksql-engine/src/main/java/io/confluent/ksql/structured/SchemaKStream.java:451-488 | Grouping by the key reuses the key field verbatim with `groupByKey`. The throwing shape fails with a null pointer exception. Every other grouping repartitions onto the synthetic key, or fails iff a grouping expression does not compile. |
| `GroupBy.GroupByIntended` | ksql-engine/src/main/java/io/confluent/ksql/structured/SchemaKStream.java:451-488 | The group-by with the corrected decision can fail only on compilation, and otherwise reuses the key or repartitions. |
| `GroupBy.GroupByIntendedAgrees` | ksql-engine/src/main/java/io/confluent/ksql/structured/SchemaKStream.java:451-488 | Outside the throwing shape, the corrected group-by equals the code's. |
| `GroupBy.Admits` | ksql-engine/src/main/java/io/confluent/ksql/structured/SchemaKStream.java:471-473 | The repartitioning group-by drops exactly the records whose value is null. The key-reusing one filters nothing. |
| `GroupBy.RepartitionIgnoresOldKey` | ksql-engine/src/main/java/io/confluent/ksql/structured/SchemaKStream.java:441-487 | A repartitioning group-by does not depend on the stream's old key: with any other key that also leads to a repartition, the outcome, schema, key field and grouping are the same. |
| `GroupBy.QualifiedReferenceForcesRepartition` | ksql-engine/src/main/java/io/confluent/ksql/structured/SchemaKStream.java:434-436 | A qualified reference `S.ID` never matches the alias-stripped key name `ID`, so it forces a repartition. |
| `GroupBy.DereferenceToKeyReusesKey` | ksql-engine/src/main/java/io/confluent/ksql/structured/SchemaKStream.java:430-433 | Grouping by a dereference whose field name is the alias-stripped key reuses the existing key. |
| `GroupBy.GroupByAfterRekeyReusesKey` | ksql-engine/src/main/java/io/confluent/ksql/structured/SchemaKStream.java:394-466 | After a rekey onto a new field, grouping by a dereference of that field reuses the new key without a second repartition. |
| `GroupBy.GroupingByOtherColumnRepartitions` | ksql-engine/src/main/java/io/confluent/ksql/structured/SchemaKStream.java:451-487 | Grouping `[ROWKEY, ORDERID, AMOUNT]` keyed by ROWKEY by the column ORDERID repartitions onto `keyNameFor([ORDERID])` at index -1. |

## Left out

- The Kafka Streams operators that the builders wrap are not modelled: `filter`, `mapValues`, `selectKey`, `groupBy`/`groupByKey`, the joins and `to`. The same goes for `JoinWindows`, `Joined`, `Grouped`, `Produced` and every serde. They are runtime calls whose code is not here. The model keeps the node metadata and the per-record functions they are given.
- The key serde change (String serde after `selectKey` and a repartitioning `groupBy`) and `hasWindowedKey` are left out. Both are about serde classes.
- The windowing of stream-stream joins is left out. The window only decides which pairs the runtime joins, and the merge of a pair does not depend on it.
- `SqlPredicate`, `SelectValueMapper`, `GroupByMapper` and `CodeGenRunner` are not part of this model. Compilation is one oracle that gives each expression a type or rejects it. The row predicate, the projection's row mapper and the composite group-by key are not modelled, including any checks `SqlPredicate` adds beyond compilation.
- Selection.CompileExpressions: batch compilation is modelled as compiling each expression on its own, failing on the first that does not compile. `CodeGenRunner.compileExpressions` itself is not shown.
- Selection.BuildSchema: the schema builder rejecting two fields with the same name is connect library behaviour outside this model. Duplicate select names are therefore not an error here.
- SchemaKStream.Select: for the same reason, its failure case covers compilation only. A projection with two items of the same name, which the schema builder rejects, succeeds in the model.
- SchemaKStream.RekeyRecord: the code writes the key into the ROWKEY column of the incoming row in place and passes the same row object on, so any other holder of that row sees the overwritten column. The model returns an updated copy and leaves the input record unchanged, because Dafny values have no identity.
- `toQueue`, `getKstream`, the `outputNode`/`setOutputNode` annotation, the config, the function registry and the schema-registry client are plumbing with no stateable behaviour. `into` itself returns its node unchanged, so only its row mapper is modelled.
- `QualifiedName` is not part of this model. Its `toString` is taken as its parts joined with '.' and its `getSuffix` as its last part.
- `SchemaKTable`, the right-hand side of a stream-table join, is modelled as a plain node.
- `TimeLiteral` and `KafkaStreamsBuilderImpl` are left out. One is a value holder and the other a thin wrapper that constructs a Kafka Streams client.

## Findings

| source | as written | input that shows it | evidently intended | confidence | as-written member | corrected member |
|---|---|---|---|---|---|---|
| ksql-engine/src/main/java/io/confluent/ksql/structured/SchemaKStream.java:447-448 | `fieldNameFromExpression(expr).equals(keyFieldName)` is evaluated on null when the one grouping expression is not a column reference | a stream with a key field, grouped by `[Other(..)]` (for example an arithmetic expression) | the expression does not match the key, so the stream is repartitioned | medium, not executed | `GroupBy.RekeyRequired` (shown by `GroupBy.RekeyRequiredThrowsOnComputedExpression`) | `GroupBy.RekeyRequiredIntended`, used by `GroupBy.GroupByIntended` (agreement elsewhere: `GroupBy.GroupByIntendedAgrees`) |

=== FILE: collaborators.dfy ===
/** The helpers the plan-node logic calls whose code is outside this model. Each one is a
    function value, so every property proved here holds whatever those helpers compute. */
module Collaborators {
  import opened Types

  datatype Collaborators = Collaborators(
    /** `SchemaUtil.matchFieldName(field, name)`. */
    matchFieldName: (Field, string) -> bool,
    /** `SchemaUtil.getFieldNameWithNoAlias(field)`: the key name with its source alias stripped. */
    fieldNameWithNoAlias: Field -> string,
    /** `SchemaUtil.getFieldIndexByName(schema, name)`; any int, -1 when absent. */
    fieldIndexByName: (Schema, string) -> int,
    /** `SchemaUtil.getSchemaDefinitionString(schema)`. */
    schemaDefinitionString: Schema -> string,
    /** `SchemaUtil.ROWKEY_NAME_INDEX`: the column that holds the row key. */
    rowkeyNameIndex: int,
    /** `Expression.toString()`, used on dereference expressions. */
    exprText: Expr -> string,
    /** `CodeGenRunner` applied to one expression against a schema: its type, or `None`
        when the expression does not compile. */
    compile: (Schema, Expr) -> Option<SqlType>,
    /** `GroupByMapper.keyNameFor(expressions)`. */
    keyNameFor: seq<Expr> -> string,
    /** `Object.toString()` of a column value. */
    valueText: Value -> string
  )
}

=== FILE: group_by.dfy ===
/** `groupBy` and the repartition decision behind it (`rekeyRequired`,
    `fieldNameFromExpression`, and the `GroupBy` inner class). */
module GroupBy {
  import opened Types
  import opened Collaborators
  import opened PlanNode
  import Selection
  import SchemaKStream

  /** How the grouped stream is formed: by the existing key (`groupByKey`, no
      repartition) or by the grouping expressions (`groupBy` with a `GroupByMapper`, which
      repartitions on a synthetic string key). */
  datatype Grouping = ByExistingKey | ByExpressions(exprs: seq<Expr>)

  /** `SchemaKGroupedStream`: the metadata of a grouped stream. */
  datatype GroupedStream = GroupedStream(schema: Schema, keyField: Option<Field>, upstreams: seq<Node>, grouping: Grouping)

  /** `fieldNameFromExpression`: the column a grouping expression names, or null for an
      expression that is not a column reference. A dereference names its field; a
      qualified name names its whole dotted text, qualifier included. */
  function FieldNameFromExpression(e: Expr): (r: Option<string>)
    ensures r.None? <==> e.Other?
    ensures e.Deref? ==> r == Some(e.fieldName)
    ensures e.QName? && |e.name| == 1 ==> r == Some(e.name[0])
    ensures e.QName? ==> r == Some(Dotted(e.name))
    ensures e.QName? && |e.name| > 1 ==> |r.value| > |Suffix(e.name)|
  {
    match e
    case Deref(_, f) => Some(f)
    case QName(q) => Some(Dotted(q))
    case Other(_) => None
  }

  /** The one shape of grouping that can reuse the existing partitioning: a single column
      reference whose name is the key's name with its alias stripped. */
  predicate GroupsByKey(c: Collaborators, keyField: Option<Field>, exprs: seq<Expr>)
  {
    && keyField.Some?
    && |exprs| == 1
    && match exprs[0]
       case Deref(_, f) => f == c.fieldNameWithNoAlias(keyField.value)
       case QName(q) => Dotted(q) == c.fieldNameWithNoAlias(keyField.value)
       case Other(_) => false
  }

  /** The shape on which `rekeyRequired` dereferences null: a keyed stream grouped by one
      expression that is not a column reference. */
  predicate ThrowsOnGrouping(keyField: Option<Field>, exprs: seq<Expr>)
  {
    keyField.Some? && |exprs| == 1 && exprs[0].Other?
  }

  /** `rekeyRequired(groupByExpressions)` as written: an unkeyed stream always needs a
      repartition; a keyed stream needs none exactly when it is grouped by its own key;
      grouping a keyed stream by one non-column expression calls `equals` on null. */
  function RekeyRequired(c: Collaborators, keyField: Option<Field>, exprs: seq<Expr>): (r: Result<bool>)
    ensures r.Err? <==> ThrowsOnGrouping(keyField, exprs)
    ensures r.Err? ==> r.error.NullPointer?
    ensures r.Ok? ==> (r.value <==> !GroupsByKey(c, keyField, exprs))
  {
    if keyField.None? then Ok(true)
    else
      var keyFieldName := c.fieldNameWithNoAlias(keyField.value);
      if |exprs| != 1 then Ok(true)
      else
        match FieldNameFromExpression(exprs[0])
        case None => Err(NullPointer("fieldNameFromExpression returned null"))
        case Some(name) => Ok(!(name == keyFieldName))
  }

  /** `rekeyRequired` corrected: a grouping expression without a field name counts as a
      mismatch with the key, so a keyed stream grouped by a computed expression is
      repartitioned instead of failing. */
  function RekeyRequiredIntended(c: Collaborators, keyField: Option<Field>, exprs: seq<Expr>): (r: bool)
    ensures r <==> !GroupsByKey(c, keyField, exprs)
    ensures ThrowsOnGrouping(keyField, exprs) ==> r
  {
    if keyField.None? || |exprs| != 1 then true
    else
      match FieldNameFromExpression(exprs[0])
      case None => true
      case Some(name) => name != c.fieldNameWithNoAlias(keyField.value)
  }

  /** On a keyed stream grouped by one computed expression the code as written throws,
      where the intended decision is a repartition. */
  lemma RekeyRequiredThrowsOnComputedExpression(c: Collaborators, key: Field, text: string)
    ensures RekeyRequired(c, Some(key), [Other(text)]).Err?
    ensures RekeyRequiredIntended(c, Some(key), [Other(text)])
  {
  }

  /** Everywhere the code as written does not throw, it decides as the corrected one. */
  lemma RekeyRequiredAgreesWhereDefined(c: Collaborators, keyField: Option<Field>, exprs: seq<Expr>)
    requires RekeyRequired(c, keyField, exprs).Ok?
    ensures RekeyRequired(c, keyField, exprs).value == RekeyRequiredIntended(c, keyField, exprs)
  {
  }

  /** The repartitioning branch of `groupBy`: compile the grouping expressions against the
      node's schema (the `GroupBy` inner class) and key the grouped stream by a synthetic,
      non-indexed optional string field named by `keyNameFor`. */
  function Repartition(c: Collaborators, n: Node, exprs: seq<Expr>): (r: Result<GroupedStream>)
    ensures r.Err? <==> exists i :: 0 <= i < |exprs| && c.compile(n.schema, exprs[i]).None?
    ensures r.Ok? ==> r.value.keyField == Some(Field(c.keyNameFor(exprs), -1, OptionalString))
    ensures r.Ok? ==> r.value.schema == n.schema && r.value.upstreams == [n]
                      && r.value.grouping == ByExpressions(exprs)
  {
    match Selection.CompileExpressions(c, n.schema, exprs)
    case Err(e) => Err(e)
    case Ok(_) =>
      var newKeyField := Field(c.keyNameFor(exprs), -1, OptionalString);
      Ok(GroupedStream(n.schema, Some(newKeyField), [n], ByExpressions(exprs)))
  }

  /** `groupBy(valSerde, groupByExpressions)` as written. Without a repartition the grouped
      stream keeps the node's key field verbatim; with one it is keyed by the synthetic
      field; a keyed stream grouped by one computed expression throws. */
  function GroupBy(c: Collaborators, n: Node, exprs: seq<Expr>): (r: Result<GroupedStream>)
    ensures ThrowsOnGrouping(n.keyField, exprs) ==> r.Err? && r.error.NullPointer?
    ensures GroupsByKey(c, n.keyField, exprs) ==>
              r == Ok(GroupedStream(n.schema, n.keyField, [n], ByExistingKey))
    ensures !GroupsByKey(c, n.keyField, exprs) && !ThrowsOnGrouping(n.keyField, exprs) ==>
              && (r.Err? <==> exists i :: 0 <= i < |exprs| && c.compile(n.schema, exprs[i]).None?)
              && (r.Ok? ==> r.value == GroupedStream(n.schema, Some(Field(c.keyNameFor(exprs), -1, OptionalString)),
                                                     [n], ByExpressions(exprs)))
  {
    match RekeyRequired(c, n.keyField, exprs)
    case Err(e) => Err(e)
    case Ok(rekey) =>
      if !rekey then Ok(GroupedStream(n.schema, n.keyField, [n], ByExistingKey))
      else Repartition(c, n, exprs)
  }

  /** `groupBy` with the corrected repartition decision: it never throws a null pointer
      exception, and it builds what the code builds on every input the code accepts. */
  function GroupByIntended(c: Collaborators, n: Node, exprs: seq<Expr>): (r: Result<GroupedStream>)
    ensures r.Err? ==> r.error.CompileError?
    ensures GroupsByKey(c, n.keyField, exprs) ==>
              r == Ok(GroupedStream(n.schema, n.keyField, [n], ByExistingKey))
    ensures !GroupsByKey(c, n.keyField, exprs) ==> r == Repartition(c, n, exprs)
  {
    if RekeyRequiredIntended(c, n.keyField, exprs) then Repartition(c, n, exprs)
    else Ok(GroupedStream(n.schema, n.keyField, [n], ByExistingKey))
  }

  /** The corrected builder differs from the code only where the code throws. */
  lemma GroupByIntendedAgrees(c: Collaborators, n: Node, exprs: seq<Expr>)
    requires !ThrowsOnGrouping(n.keyField, exprs)
    ensures GroupByIntended(c, n, exprs) == GroupBy(c, n, exprs)
  {
  }

  /** Whether the grouped stream admits a record: grouping by expressions drops records
      whose value is null; grouping by the existing key filters nothing. */
  function Admits(g: Grouping, rec: Record): (b: bool)
    ensures g.ByExpressions? ==> (b <==> rec.value.Some?)
    ensures g.ByExistingKey? ==> b
  {
    g.ByExistingKey? || rec.value.Some?
  }

  /** A repartitioning group-by does not depend on the key the stream had: replacing the
      node's key field by any other that also leads to a repartition changes neither the
      outcome nor the grouped stream's schema, key field or grouping. */
  lemma RepartitionIgnoresOldKey(c: Collaborators, n: Node, k: Option<Field>, exprs: seq<Expr>)
    requires !GroupsByKey(c, n.keyField, exprs) && !ThrowsOnGrouping(n.keyField, exprs)
    requires !GroupsByKey(c, k, exprs) && !ThrowsOnGrouping(k, exprs)
    ensures var a := GroupBy(c, n, exprs);
            var b := GroupBy(c, n.(keyField := k), exprs);
            && a.Ok? == b.Ok?
            && (a.Ok? ==> && a.value.schema == b.value.schema
                          && a.value.keyField == b.value.keyField
                          && a.value.grouping == b.value.grouping)
  {
  }

  /** A qualified reference `S.ID` never matches the alias-stripped key name `ID`: the
      repartition decision compares the whole dotted name, unlike projection key
      resolution, which matches on the last part only. */
  lemma {:induction false} QualifiedReferenceForcesRepartition(c: Collaborators, key: Field, q: QualifiedName)
    requires |q| > 1 && c.fieldNameWithNoAlias(key) == Suffix(q)
    ensures RekeyRequired(c, Some(key), [QName(q)]) == Ok(true)
  {
    assert |Dotted(q)| > |Suffix(q)|;
  }

  /** The same key column referenced as `S.ID` through a dereference is recognised as the
      key, and the existing partitioning is reused. */
  lemma DereferenceToKeyReusesKey(c: Collaborators, n: Node, base: Expr, f: string)
    requires n.keyField.Some? && f == c.fieldNameWithNoAlias(n.keyField.value)
    ensures GroupBy(c, n, [Deref(base, f)]) == Ok(GroupedStream(n.schema, n.keyField, [n], ByExistingKey))
  {
  }

  /** Rekeying a stream onto a new column and then grouping by a dereference of that
      column reuses the rekeyed partitioning instead of repartitioning again. */
  lemma GroupByAfterRekeyReusesKey(c: Collaborators, n: Node, newKeyField: Field, base: Expr)
    requires !(n.keyField.Some? && n.keyField.value.name == newKeyField.name)
    ensures var k := SchemaKStream.SelectKey(n, newKeyField);
            var f := c.fieldNameWithNoAlias(newKeyField);
            GroupBy(c, k, [Deref(base, f)]) == Ok(GroupedStream(n.schema, Some(newKeyField), [k], ByExistingKey))
  {
  }

  /** Input `[ROWKEY, ORDERID, AMOUNT]` keyed by ROWKEY, grouped by the column ORDERID:
      a repartition onto the synthetic key `keyNameFor([ORDERID])`, not indexed. */
  lemma GroupingByOtherColumnRepartitions(c: Collaborators)
    requires c.fieldNameWithNoAlias(Field("ROWKEY", 0, RequiredString)) == "ROWKEY"
    requires c.compile(SchemaKStream.OrdersSchema(), QName(["ORDERID"])).Some?
    ensures var n := Node(Source, SchemaKStream.OrdersSchema(), Some(Field("ROWKEY", 0, RequiredString)), []);
            var r := GroupBy(c, n, [QName(["ORDERID"])]);
            && r.Ok?
            && r.value.grouping == ByExpressions([QName(["ORDERID"])])
            && r.value.keyField == Some(Field(c.keyNameFor([QName(["ORDERID"])]), -1, OptionalString))
  {
    var n := Node(Source, SchemaKStream.OrdersSchema(), Some(Field("ROWKEY", 0, RequiredString)), []);
    var es := [QName(["ORDERID"])];
    assert !GroupsByKey(c, n.keyField, es) by {
      assert Dotted(["ORDERID"]) == "ORDERID";
      assert "ORDERID"[0] != "ROWKEY"[0];
    }
    assert !ThrowsOnGrouping(n.keyField, es);
    assert forall i :: 0 <= i < |es| ==> c.compile(n.schema, es[i]).Some?;
  }
}

=== FILE: plan_node.dfy ===
/** The physical plan node (`SchemaKStream` without its runtime stream) and its
    execution-plan text dump. */
module PlanNode {
  import opened Types
  import opened Collaborators

  /** `SchemaKStream.Type`. */
  datatype Kind = Source | Project | Filter | Aggregate | Sink | Rekey | Join | ToStream

  /** The enum constant's name, as `append(type)` prints it. */
  function KindName(k: Kind): string
  {
    match k
    case Source => "SOURCE"
    case Project => "PROJECT"
    case Filter => "FILTER"
    case Aggregate => "AGGREGATE"
    case Sink => "SINK"
    case Rekey => "REKEY"
    case Join => "JOIN"
    case ToStream => "TOSTREAM"
  }

  /** A plan node: output schema, key field (possibly null), kind and upstream nodes. */
  datatype Node = Node(kind: Kind, schema: Schema, keyField: Option<Field>, upstreams: seq<Node>)

  /** What follows the indent on a node's own line of the dump. */
  function Header(c: Collaborators, n: Node): string
  {
    " > [ " + KindName(n.kind) + " ] Schema: " + c.schemaDefinitionString(n.schema) + ".\n"
  }

  /** `getExecutionPlan(indent)`: the node's line, then every upstream's dump in list order,
      each preceded by a tab and the current indent and rendered one tab deeper. */
  function ExecutionPlan(c: Collaborators, n: Node, indent: string): (r: string)
    ensures |r| >= |indent| + |Header(c, n)|
    ensures n.upstreams == [] ==> r == indent + Header(c, n)
    decreases n, 1
  {
    indent + Header(c, n) + UpstreamPlans(c, n, n.upstreams, indent)
  }

  /** Whatever the upstreams, a node's dump starts with its own line. */
  lemma DumpStartsWithOwnLine(c: Collaborators, n: Node, indent: string)
    ensures var r := ExecutionPlan(c, n, indent);
            var own := indent + Header(c, n);
            |own| <= |r| && r[..|own|] == own
  {
  }

  /** The loop of `getExecutionPlan` over the upstream nodes `ups` of `parent`. */
  function UpstreamPlans(c: Collaborators, parent: Node, ups: seq<Node>, indent: string): string
    requires forall u :: u in ups ==> u in parent.upstreams
    decreases parent, 0, |ups|
  {
    if |ups| == 0 then ""
    else
      assert ups[0] in parent.upstreams;
      "\t" + indent + ExecutionPlan(c, ups[0], indent + "\t") + UpstreamPlans(c, parent, ups[1..], indent)
  }

  /** `k` tab characters. */
  function Tabs(k: nat): (t: string)
    ensures |t| == k
  {
    if k == 0 then "" else Tabs(k - 1) + "\t"
  }

  /** A node of the plan tree together with its depth below the dumped root. */
  datatype Entry = Entry(node: Node, depth: nat)

  /** The nodes of the tree rooted at `n` (at depth `d`) in pre-order: a node, then the
      subtrees of its upstreams in list order. */
  function Preorder(n: Node, d: nat): (es: seq<Entry>)
    ensures |es| >= 1 && es[0] == Entry(n, d)
    decreases n, 1
  {
    [Entry(n, d)] + PreorderAll(n, n.upstreams, d + 1)
  }

  /** The pre-order entries of the subtrees `ups` of `parent`, each rooted at depth `d`. */
  function PreorderAll(parent: Node, ups: seq<Node>, d: nat): seq<Entry>
    requires forall u :: u in ups ==> u in parent.upstreams
    decreases parent, 0, |ups|
  {
    if |ups| == 0 then []
    else
      assert ups[0] in parent.upstreams;
      Preorder(ups[0], d) + PreorderAll(parent, ups[1..], d)
  }

  /** The text before a node's header on its line, when the dump starts at indent `base`
      and the node sits at depth `d`: the root is indented by `base`; a deeper node gets
      the tab and indent its parent's loop writes (a tab, the base, d-1 tabs) followed by
      its own indent (the base and d tabs). */
  function Prefix(base: string, d: nat): string
  {
    if d == 0 then base else ("\t" + base + Tabs(d - 1)) + (base + Tabs(d))
  }

  /** The line of entry `e`. */
  function Line(c: Collaborators, base: string, e: Entry): string
  {
    Prefix(base, e.depth) + Header(c, e.node)
  }

  /** The lines of the entries `es`, concatenated. */
  function Lines(c: Collaborators, base: string, es: seq<Entry>): string
  {
    if |es| == 0 then "" else Line(c, base, es[0]) + Lines(c, base, es[1..])
  }

  lemma Assoc(a: string, b: string, d: string)
    ensures a + (b + d) == (a + b) + d
  {
  }

  lemma {:induction false} LinesAppend(c: Collaborators, base: string, xs: seq<Entry>, ys: seq<Entry>)
    ensures Lines(c, base, xs + ys) == Lines(c, base, xs) + Lines(c, base, ys)
    decreases |xs|
  {
    if |xs| == 0 {
      assert xs + ys == ys;
    } else {
      assert (xs + ys)[1..] == xs[1..] + ys;
      LinesAppend(c, base, xs[1..], ys);
      Assoc(Line(c, base, xs[0]), Lines(c, base, xs[1..]), Lines(c, base, ys));
    }
  }

  /** The lines of a subtree rooted at depth `d`: the root's line, then its upstreams'. */
  lemma PreorderLines(c: Collaborators, base: string, n: Node, d: nat)
    ensures Lines(c, base, Preorder(n, d))
         == (Prefix(base, d) + Header(c, n)) + Lines(c, base, PreorderAll(n, n.upstreams, d + 1))
  {
    var es := Preorder(n, d);
    assert es[1..] == PreorderAll(n, n.upstreams, d + 1);
  }

  /** A subtree at depth d >= 1: the tab and parent indent the parent's loop writes,
      followed by the subtree's own dump at indent base + d tabs, are exactly the lines of
      its pre-order entries. */
  lemma {:induction false} SubtreeDump(c: Collaborators, base: string, n: Node, d: nat)
    requires d >= 1
    ensures ("\t" + base + Tabs(d - 1)) + ExecutionPlan(c, n, base + Tabs(d)) == Lines(c, base, Preorder(n, d))
    decreases n, 1
  {
    var p := "\t" + base + Tabs(d - 1);
    var ind := base + Tabs(d);
    var h := Header(c, n);
    var rest := UpstreamPlans(c, n, n.upstreams, ind);
    UpstreamDumps(c, base, n, n.upstreams, d);
    PreorderLines(c, base, n, d);
    Assoc(p, ind + h, rest);
    Assoc(p, ind, h);
  }

  /** The parent's loop over `ups` at indent base + d tabs prints the lines of the
      upstream subtrees, each rooted at depth d + 1. */
  lemma {:induction false} UpstreamDumps(c: Collaborators, base: string, parent: Node, ups: seq<Node>, d: nat)
    requires forall u :: u in ups ==> u in parent.upstreams
    ensures UpstreamPlans(c, parent, ups, base + Tabs(d)) == Lines(c, base, PreorderAll(parent, ups, d + 1))
    decreases parent, 0, |ups|
  {
    if |ups| > 0 {
      var ind := base + Tabs(d);
      assert ups[0] in parent.upstreams;
      Assoc(base, Tabs(d), "\t");
      Assoc("\t", base, Tabs(d));
      var sub := ExecutionPlan(c, ups[0], ind + "\t");
      var tail := UpstreamPlans(c, parent, ups[1..], ind);
      assert UpstreamPlans(c, parent, ups, ind) == (("\t" + ind) + sub) + tail;
      SubtreeDump(c, base, ups[0], d + 1);
      assert ("\t" + ind) + sub == Lines(c, base, Preorder(ups[0], d + 1));
      UpstreamDumps(c, base, parent, ups[1..], d);
      assert PreorderAll(parent, ups, d + 1) == Preorder(ups[0], d + 1) + PreorderAll(parent, ups[1..], d + 1);
      LinesAppend(c, base, Preorder(ups[0], d + 1), PreorderAll(parent, ups[1..], d + 1));
    }
  }

  /** The dump of a plan tree is one line per node, in pre-order, each indented as `Prefix`
      describes. */
  lemma {:induction false} ExecutionPlanIsPreorderLines(c: Collaborators, n: Node, indent: string)
    ensures ExecutionPlan(c, n, indent) == Lines(c, indent, Preorder(n, 0))
  {
    assert indent + Tabs(0) == indent;
    UpstreamDumps(c, indent, n, n.upstreams, 0);
    PreorderLines(c, indent, n, 0);
  }

  /** A node without upstreams dumps exactly its own line. */
  lemma LeafDumpsOneLine(c: Collaborators, n: Node, indent: string)
    requires n.upstreams == []
    ensures ExecutionPlan(c, n, indent) == indent + " > [ " + KindName(n.kind) + " ] Schema: "
                                           + c.schemaDefinitionString(n.schema) + ".\n"
  {
  }
}

=== FILE: schema_kstream.dfy ===
/** The node builders of `SchemaKStream` (filter, select, the join variants, selectKey)
    and the per-record functions the runtime stream is wrapped with (the rekey lambdas and
    the sink's key-column stripping). */
module SchemaKStream {
  import opened Types
  import opened Collaborators
  import opened PlanNode
  import Selection
  import KsqlValueJoiner

  // ---------------------------------------------------------------- filter

  /** `filter(expression)`: a FILTER node over `n` with `n`'s schema and key, or the error
      of compiling the predicate against `n`'s schema. */
  function Filter(c: Collaborators, n: Node, condition: Expr): (r: Result<Node>)
    ensures r.Err? <==> c.compile(n.schema, condition).None?
    ensures r.Err? ==> r.error == CompileError(condition)
    ensures r.Ok? ==> r.value.kind == PlanNode.Filter && r.value.upstreams == [n]
    ensures r.Ok? ==> r.value.schema == n.schema && r.value.keyField == n.keyField
  {
    if c.compile(n.schema, condition).None? then Err(CompileError(condition))
    else Ok(Node(PlanNode.Filter, n.schema, n.keyField, [n]))
  }

  // ---------------------------------------------------------------- select

  /** `select(selectExpressions)`: a PROJECT node over `n`, or the error of the first
      select expression that does not compile. Its schema has one field per item, named
      after the item and typed by the item's compiled expression; its key is the one
      `findKeyField` resolves. */
  function Select(c: Collaborators, n: Node, items: seq<SelectItem>): (r: Result<Node>)
    ensures r.Err? <==> exists i :: 0 <= i < |items| && c.compile(n.schema, items[i].expr).None?
    ensures r.Ok? ==> r.value.kind == Project && r.value.upstreams == [n]
    ensures r.Ok? ==> |r.value.schema.fields| == |items|
    ensures r.Ok? ==> forall i :: 0 <= i < |items| ==>
                        && r.value.schema.fields[i].name == items[i].name
                        && r.value.schema.fields[i].index == i
                        && Some(r.value.schema.fields[i].schema) == c.compile(n.schema, items[i].expr)
    ensures r.Ok? ==> r.value.keyField == Selection.FindKeyField(c, n.keyField, items)
  {
    var key := Selection.FindKeyField(c, n.keyField, items);
    var es := Selection.Expressions(items);
    match Selection.CompileExpressions(c, n.schema, es)
    case Err(e) => Err(e)
    case Ok(types) => Ok(Node(Project, Selection.BuildSchema(items, types), key, [n]))
  }

  /** Filtering does not change what a projection over it computes: the projection of a
      filter node has the schema and key of the projection of the filtered node. */
  lemma SelectAfterFilter(c: Collaborators, n: Node, condition: Expr, items: seq<SelectItem>)
    requires Filter(c, n, condition).Ok?
    ensures var f := Filter(c, n, condition).value;
            && Select(c, f, items).Ok? == Select(c, n, items).Ok?
            && (Select(c, n, items).Ok? ==>
                  && Select(c, f, items).value.schema == Select(c, n, items).value.schema
                  && Select(c, f, items).value.keyField == Select(c, n, items).value.keyField)
  {
  }

  /** A projection that selects the key column under some name keeps the key at that
      item's position and under that name, with the key's type. */
  lemma {:induction false} SelectedKeyBecomesKey(c: Collaborators, n: Node, items: seq<SelectItem>, j: nat)
    requires n.keyField.Some? && n.keyField.value.index != -1
    requires j < |items| && Selection.References(c, n.keyField.value, items[j].expr)
    requires forall m :: 0 <= m < j ==> !Selection.References(c, n.keyField.value, items[m].expr)
    ensures Select(c, n, items).Ok? ==>
              Select(c, n, items).value.keyField == Some(Field(items[j].name, j, n.keyField.value.schema))
  {
    Selection.FindKeyFieldIsFirst(c, n.keyField.value, items, j);
  }

  /** A projection that selects no reference to the (non-synthetic) key has no key. */
  lemma UnselectedKeyIsDropped(c: Collaborators, n: Node, items: seq<SelectItem>)
    requires n.keyField.Some? && n.keyField.value.index != -1
    requires forall j :: 0 <= j < |items| ==> !Selection.References(c, n.keyField.value, items[j].expr)
    ensures Select(c, n, items).Ok? ==> Select(c, n, items).value.keyField.None?
  {
  }

  /** Input `[ROWKEY: string@0, ORDERID: int@1, AMOUNT: double@2]` keyed by ROWKEY,
      projected to `[ORDERID, ROWKEY]` by bare column references, with a name matcher that
      compares names exactly: the output schema is `[ORDERID: int@0, ROWKEY: string@1]`
      and the key is `ROWKEY@1`. */
  lemma ProjectionKeepsSelectedKey(c: Collaborators)
    requires forall f, s :: c.matchFieldName(f, s) <==> f.name == s
    requires c.compile(OrdersSchema(), QName(["ORDERID"])) == Some(Int32)
    requires c.compile(OrdersSchema(), QName(["ROWKEY"])) == Some(RequiredString)
    ensures var n := Node(Source, OrdersSchema(), Some(Field("ROWKEY", 0, RequiredString)), []);
            var r := Select(c, n, [SelectItem("ORDERID", QName(["ORDERID"])), SelectItem("ROWKEY", QName(["ROWKEY"]))]);
            && r.Ok?
            && r.value.schema == Schema([Field("ORDERID", 0, Int32), Field("ROWKEY", 1, RequiredString)])
            && r.value.keyField == Some(Field("ROWKEY", 1, RequiredString))
  {
    var key := Field("ROWKEY", 0, RequiredString);
    var items := [SelectItem("ORDERID", QName(["ORDERID"])), SelectItem("ROWKEY", QName(["ROWKEY"]))];
    assert !Selection.References(c, key, items[0].expr);
    assert Selection.References(c, key, items[1].expr);
    var n := Node(Source, OrdersSchema(), Some(key), []);
    SelectedKeyBecomesKey(c, n, items, 1);
  }

  /** The same input projected to `[ORDERID]` alone: the key is not selected, so the
      projection has no key. */
  lemma ProjectionWithoutKeyHasNoKey(c: Collaborators)
    requires forall f, s :: c.matchFieldName(f, s) <==> f.name == s
    requires c.compile(OrdersSchema(), QName(["ORDERID"])) == Some(Int32)
    ensures var n := Node(Source, OrdersSchema(), Some(Field("ROWKEY", 0, RequiredString)), []);
            var r := Select(c, n, [SelectItem("ORDERID", QName(["ORDERID"]))]);
            r.Ok? && r.value.keyField.None?
  {
    var key := Field("ROWKEY", 0, RequiredString);
    assert !Selection.References(c, key, QName(["ORDERID"]));
  }

  /** The schema of the examples above. */
  function OrdersSchema(): Schema
  {
    Schema([Field("ROWKEY", 0, RequiredString), Field("ORDERID", 1, Int32), Field("AMOUNT", 2, Float64)])
  }

  // ---------------------------------------------------------------- joins

  /** The five join methods: stream-table inner and left joins, and windowed stream-stream
      inner, left and outer joins. They differ only in the runtime join they wrap. */
  datatype JoinVariant = TableInner | TableLeft | StreamInner | StreamLeft | StreamOuter

  /** `join` / `leftJoin` / `outerJoin`: a JOIN node with the caller's join schema and join
      key, whose upstreams are the left node then the right node. */
  function JoinNode(variant: JoinVariant, left: Node, right: Node, joinSchema: Schema, joinKey: Option<Field>): (r: Node)
    ensures r.kind == PlanNode.Join && r.upstreams == [left, right]
    ensures r.schema == joinSchema && r.keyField == joinKey
  {
    Node(PlanNode.Join, joinSchema, joinKey, [left, right])
  }

  /** The value merge every join variant wraps: `KsqlValueJoiner` built from the left
      node's schema and the right node's schema. */
  function JoinValues(left: Node, right: Node, l: Option<Row>, rr: Option<Row>): (r: Row)
    ensures |r| == (if l.Some? then |l.value| else |left.schema.fields|)
                 + (if rr.Some? then |rr.value| else |right.schema.fields|)
    ensures l.Some? ==> r[..|l.value|] == l.value
    ensures l.None? ==> forall i :: 0 <= i < |left.schema.fields| ==> r[i].None?
    ensures rr.Some? ==> r[|r| - |rr.value|..] == rr.value
    ensures rr.None? ==> forall i :: |r| - |right.schema.fields| <= i < |r| ==> r[i].None?
  {
    KsqlValueJoiner.Apply(left.schema, right.schema, l, rr)
  }

  /** A left or outer join event with no right match pads the left row with one null per
      field of the right node's schema. */
  lemma UnmatchedLeftRowIsPadded(left: Node, right: Node, l: Row)
    ensures JoinValues(left, right, Some(l), None) == l + Nulls(|right.schema.fields|)
  {
  }

  /** Whatever the variant, the dump of a join lists its header, then the left input's dump,
      then the right input's dump, each one level deeper. */
  lemma JoinPlanListsLeftThenRight(c: Collaborators, variant: JoinVariant, left: Node, right: Node,
                                   joinSchema: Schema, joinKey: Option<Field>, indent: string)
    ensures var j := JoinNode(variant, left, right, joinSchema, joinKey);
            ExecutionPlan(c, j, indent)
              == indent + " > [ JOIN ] Schema: " + c.schemaDefinitionString(joinSchema) + ".\n"
                 + ("\t" + indent + ExecutionPlan(c, left, indent + "\t"))
                 + ("\t" + indent + ExecutionPlan(c, right, indent + "\t"))
  {
    var j := JoinNode(variant, left, right, joinSchema, joinKey);
    var d := c.schemaDefinitionString(joinSchema);
    var h := Header(c, j);
    var a := "\t" + indent + ExecutionPlan(c, left, indent + "\t");
    var b := "\t" + indent + ExecutionPlan(c, right, indent + "\t");
    calc {
      ExecutionPlan(c, j, indent);
      indent + h + UpstreamPlans(c, j, j.upstreams, indent);
      { TwoUpstreamPlans(c, j, indent); }
      (indent + h) + (a + b);
      { Assoc(indent + h, a, b); }
      ((indent + h) + a) + b;
      { JoinHeader(c, j); Assoc(indent, " > [ JOIN ] Schema: " + d, ".\n"); }
      indent + " > [ JOIN ] Schema: " + d + ".\n" + a + b;
    }
  }

  /** The header line of a JOIN node. */
  lemma JoinHeader(c: Collaborators, j: Node)
    requires j.kind == PlanNode.Join
    ensures Header(c, j) == " > [ JOIN ] Schema: " + c.schemaDefinitionString(j.schema) + ".\n"
  {
  }

  /** The upstream loop of a node with exactly two upstreams writes both dumps in order. */
  lemma TwoUpstreamPlans(c: Collaborators, j: Node, indent: string)
    requires |j.upstreams| == 2
    ensures UpstreamPlans(c, j, j.upstreams, indent)
         == ("\t" + indent + ExecutionPlan(c, j.upstreams[0], indent + "\t"))
            + ("\t" + indent + ExecutionPlan(c, j.upstreams[1], indent + "\t"))
  {
    var ups := j.upstreams;
    assert ups[1..] == [ups[1]];
    assert ups[1..][1..] == [];
    assert UpstreamPlans(c, j, ups[1..][1..], indent) == "";
  }

  // ---------------------------------------------------------------- selectKey

  /** `selectKey(newKeyField, updateRowKey)`: the node itself when its key already has the
      new key's name; otherwise a REKEY node over it with the same schema, keyed by
      `newKeyField`. */
  function SelectKey(n: Node, newKeyField: Field): (r: Node)
    ensures n.keyField.Some? && n.keyField.value.name == newKeyField.name ==> r == n
    ensures !(n.keyField.Some? && n.keyField.value.name == newKeyField.name) ==>
              r.kind == Rekey && r.upstreams == [n] && r.schema == n.schema && r.keyField == Some(newKeyField)
  {
    if n.keyField.Some? && n.keyField.value.name == newKeyField.name then n
    else Node(Rekey, n.schema, Some(newKeyField), [n])
  }

  /** Rekeying twice on the same field is rekeying once. */
  lemma SelectKeyIdempotent(n: Node, newKeyField: Field)
    ensures SelectKey(SelectKey(n, newKeyField), newKeyField) == SelectKey(n, newKeyField)
  {
  }

  /** `extractColumn(newKeyField, row)`: the column of `row` at the schema position of the
      new key's name; `List.get` throws when that position is outside the row. */
  function ExtractColumn(c: Collaborators, schema: Schema, newKeyField: Field, row: Row): (r: Result<Option<Value>>)
    ensures var i := c.fieldIndexByName(schema, newKeyField.name);
            && (r.Err? <==> !(0 <= i < |row|))
            && (r.Err? ==> r.error == IndexOutOfBounds(i))
            && (r.Ok? ==> r.value == row[i])
  {
    var i := c.fieldIndexByName(schema, newKeyField.name);
    if 0 <= i < |row| then Ok(row[i]) else Err(IndexOutOfBounds(i))
  }

  /** The rekey filter's test: the record has a value and the column at the new key's
      schema position is inside the row and not null. */
  predicate PassesFilter(c: Collaborators, schema: Schema, newKeyField: Field, rec: Record)
  {
    && rec.value.Some?
    && var x := ExtractColumn(c, schema, newKeyField, rec.value.value);
       x.Ok? && x.value.Some?
  }

  /** What the rekeyed stream does with one record of the stream being rekeyed (a stream
      with schema `schema`): `None` when the filter drops it (a null value or a null key
      column), otherwise the record re-keyed by the text of its key column, with that text
      also written into the ROWKEY column when `updateRowKey`; an error when a column
      lookup is outside the row. */
  function RekeyRecord(c: Collaborators, schema: Schema, newKeyField: Field, updateRowKey: bool, rec: Record): (r: Result<Option<Record>>)
    ensures rec.value.None? ==> r == Ok(None)
    ensures r.Ok? && r.value.Some? ==>
              && PassesFilter(c, schema, newKeyField, rec)
              && var row := rec.value.value;
                 var i := c.fieldIndexByName(schema, newKeyField.name);
                 var out := r.value.value;
                 && 0 <= i < |row| && row[i].Some?
                 && out.key == Some(Str(c.valueText(row[i].value)))
                 && out.value.Some? && |out.value.value| == |row|
                 && (!updateRowKey ==> out.value.value == row)
                 && (updateRowKey ==>
                       && 0 <= c.rowkeyNameIndex < |row|
                       && out.value.value[c.rowkeyNameIndex] == out.key
                       && forall j :: 0 <= j < |row| && j != c.rowkeyNameIndex ==> out.value.value[j] == row[j])
    ensures rec.value.Some? && ExtractColumn(c, schema, newKeyField, rec.value.value) == Ok(None) ==> r == Ok(None)
    // every record the filter passes is kept, unless the ROWKEY write is out of range
    ensures PassesFilter(c, schema, newKeyField, rec) && (!updateRowKey || 0 <= c.rowkeyNameIndex < |rec.value.value|) ==>
              r.Ok? && r.value.Some?
    // it throws exactly when the key column lookup or the ROWKEY write is outside the row
    ensures r.Err? <==>
              || (rec.value.Some? && ExtractColumn(c, schema, newKeyField, rec.value.value).Err?)
              || (&& PassesFilter(c, schema, newKeyField, rec) && updateRowKey
                  && !(0 <= c.rowkeyNameIndex < |rec.value.value|))
    ensures rec.value.Some? && ExtractColumn(c, schema, newKeyField, rec.value.value).Err? ==>
              r == Err(ExtractColumn(c, schema, newKeyField, rec.value.value).error)
    ensures PassesFilter(c, schema, newKeyField, rec) && updateRowKey && !(0 <= c.rowkeyNameIndex < |rec.value.value|) ==>
              r == Err(IndexOutOfBounds(c.rowkeyNameIndex))
  {
    match rec.value
    case None => Ok(None)
    case Some(row) =>
      match ExtractColumn(c, schema, newKeyField, row)
      case Err(e) => Err(e)
      case Ok(None) => Ok(None)
      case Ok(Some(v)) =>
        var key := Str(c.valueText(v));
        if !updateRowKey then Ok(Some(Record(Some(key), Some(row))))
        else if 0 <= c.rowkeyNameIndex < |row| then
          Ok(Some(Record(Some(key), Some(row[c.rowkeyNameIndex := Some(key)]))))
        else Err(IndexOutOfBounds(c.rowkeyNameIndex))
  }

  /** Whether one record comes out of the rekeyed stream. */
  predicate Emits(c: Collaborators, schema: Schema, newKeyField: Field, updateRowKey: bool, rec: Record)
  {
    var r := RekeyRecord(c, schema, newKeyField, updateRowKey, rec);
    r.Ok? && r.value.Some?
  }

  /** The positions `k` with `flags[k]`, in increasing order. */
  function Positions(flags: seq<bool>): (ks: seq<nat>)
    ensures forall k :: 0 <= k < |ks| ==> ks[k] < |flags| && flags[ks[k]]
    ensures (forall k :: 0 <= k < |flags| ==> !flags[k]) ==> ks == []
  {
    if |flags| == 0 then []
    else
      var n := |flags| - 1;
      Positions(flags[..n]) + (if flags[n] then [n] else [])
  }

  /** `Positions` lists every set flag exactly once, in increasing order. */
  lemma {:induction false} PositionsComplete(flags: seq<bool>)
    ensures var ks := Positions(flags);
            && (forall j :: 0 <= j < |flags| && flags[j] ==> j in ks)
            && (forall a, b :: 0 <= a < b < |ks| ==> ks[a] < ks[b])
  {
    if |flags| > 0 {
      var n := |flags| - 1;
      var pre := flags[..n];
      PositionsComplete(pre);
      var ks0 := Positions(pre);
      var ks := Positions(flags);
      assert ks == ks0 + (if flags[n] then [n] else []);
      forall j | 0 <= j < |flags| && flags[j]
        ensures j in ks
      {
        if j < n {
          assert pre[j];
          assert j in ks0;
        }
      }
    }
  }

  /** Which records of `recs` come out of the rekeyed stream. */
  function EmitMask(c: Collaborators, schema: Schema, newKeyField: Field, updateRowKey: bool, recs: seq<Record>): (m: seq<bool>)
    ensures |m| == |recs|
    ensures forall k :: 0 <= k < |recs| ==> (m[k] <==> Emits(c, schema, newKeyField, updateRowKey, recs[k]))
  {
    seq(|recs|, k requires 0 <= k < |recs| => Emits(c, schema, newKeyField, updateRowKey, recs[k]))
  }

  /** The positions of `recs` whose record comes out of the rekeyed stream, in increasing
      order. */
  function Survivors(c: Collaborators, schema: Schema, newKeyField: Field, updateRowKey: bool, recs: seq<Record>): (ks: seq<nat>)
    ensures forall k :: 0 <= k < |ks| ==> ks[k] < |recs| && Emits(c, schema, newKeyField, updateRowKey, recs[ks[k]])
    ensures (forall k :: 0 <= k < |recs| ==> !Emits(c, schema, newKeyField, updateRowKey, recs[k])) ==> ks == []
  {
    Positions(EmitMask(c, schema, newKeyField, updateRowKey, recs))
  }

  /** `Survivors` lists every emitting position exactly once, in increasing order. */
  lemma SurvivorsComplete(c: Collaborators, schema: Schema, newKeyField: Field, updateRowKey: bool, recs: seq<Record>)
    ensures var ks := Survivors(c, schema, newKeyField, updateRowKey, recs);
            && (forall j :: 0 <= j < |recs| && Emits(c, schema, newKeyField, updateRowKey, recs[j]) ==> j in ks)
            && (forall a, b :: 0 <= a < b < |ks| ==> ks[a] < ks[b])
  {
    PositionsComplete(EmitMask(c, schema, newKeyField, updateRowKey, recs));
  }

  /** Appending one record appends its position when it comes out. */
  lemma SurvivorsSnoc(c: Collaborators, schema: Schema, newKeyField: Field, updateRowKey: bool, recs: seq<Record>)
    requires |recs| > 0
    ensures var n := |recs| - 1;
            Survivors(c, schema, newKeyField, updateRowKey, recs)
              == Survivors(c, schema, newKeyField, updateRowKey, recs[..n])
                 + (if Emits(c, schema, newKeyField, updateRowKey, recs[n]) then [n] else [])
  {
    var n := |recs| - 1;
    var m := EmitMask(c, schema, newKeyField, updateRowKey, recs);
    assert m[..n] == EmitMask(c, schema, newKeyField, updateRowKey, recs[..n]);
  }

  /** A finite run of records through the rekeyed stream, in order: the records the filter
      keeps, re-keyed; the first record that throws stops the run. */
  function RekeyRecords(c: Collaborators, schema: Schema, newKeyField: Field, updateRowKey: bool, recs: seq<Record>): (r: Result<seq<Record>>)
    ensures r.Err? <==> exists k :: 0 <= k < |recs| && RekeyRecord(c, schema, newKeyField, updateRowKey, recs[k]).Err?
    decreases |recs|
  {
    if |recs| == 0 then Ok([])
    else
      var n := |recs| - 1;
      assert forall j :: 0 <= j < n ==> recs[..n][j] == recs[j];
      match RekeyRecords(c, schema, newKeyField, updateRowKey, recs[..n])
      case Err(e) => Err(e)
      case Ok(rest) =>
        match RekeyRecord(c, schema, newKeyField, updateRowKey, recs[n])
        case Err(e) => Err(e)
        case Ok(out) => Ok(rest + (if out.Some? then [out.value] else []))
  }

  /** A run that throws fails with the error of its first throwing record. */
  lemma {:induction false} RekeyRunStopsAtFirstError(c: Collaborators, schema: Schema, newKeyField: Field, updateRowKey: bool, recs: seq<Record>)
    ensures var r := RekeyRecords(c, schema, newKeyField, updateRowKey, recs);
            r.Err? ==>
              exists k :: && 0 <= k < |recs|
                          && RekeyRecord(c, schema, newKeyField, updateRowKey, recs[k]) == Err(r.error)
                          && forall m :: 0 <= m < k ==> RekeyRecord(c, schema, newKeyField, updateRowKey, recs[m]).Ok?
    decreases |recs|
  {
    if |recs| > 0 {
      var n := |recs| - 1;
      var pre := recs[..n];
      assert forall j :: 0 <= j < n ==> pre[j] == recs[j];
      RekeyRunStopsAtFirstError(c, schema, newKeyField, updateRowKey, pre);
      var p := RekeyRecords(c, schema, newKeyField, updateRowKey, pre);
      var one := RekeyRecord(c, schema, newKeyField, updateRowKey, recs[n]);
      if p.Ok? && one.Err? {
        assert RekeyRecords(c, schema, newKeyField, updateRowKey, recs) == Err(one.error);
        assert forall m :: 0 <= m < n ==> RekeyRecord(c, schema, newKeyField, updateRowKey, recs[m]).Ok?;
      }
    }
  }

  /** A run that does not throw emits, in input order, the re-keyed record of every
      position `Survivors` lists. */
  lemma {:induction false} RekeyRecordsListsSurvivors(c: Collaborators, schema: Schema, newKeyField: Field, updateRowKey: bool, recs: seq<Record>)
    ensures var r := RekeyRecords(c, schema, newKeyField, updateRowKey, recs);
            r.Ok? ==>
              var ks := Survivors(c, schema, newKeyField, updateRowKey, recs);
              && |r.value| == |ks|
              && forall k :: 0 <= k < |ks| ==>
                   r.value[k] == RekeyRecord(c, schema, newKeyField, updateRowKey, recs[ks[k]]).value.value
    decreases |recs|
  {
    if |recs| > 0 && RekeyRecords(c, schema, newKeyField, updateRowKey, recs).Ok? {
      var n := |recs| - 1;
      var pre := recs[..n];
      assert forall j :: 0 <= j < n ==> pre[j] == recs[j];
      RekeyRecordsListsSurvivors(c, schema, newKeyField, updateRowKey, pre);
      SurvivorsSnoc(c, schema, newKeyField, updateRowKey, recs);
      var rest := RekeyRecords(c, schema, newKeyField, updateRowKey, pre).value;
      var one := RekeyRecord(c, schema, newKeyField, updateRowKey, recs[n]).value;
      var ks0 := Survivors(c, schema, newKeyField, updateRowKey, pre);
      var ks := Survivors(c, schema, newKeyField, updateRowKey, recs);
      var out := RekeyRecords(c, schema, newKeyField, updateRowKey, recs).value;
      assert out == rest + (if one.Some? then [one.value] else []);
      assert ks == ks0 + (if one.Some? then [n] else []);
      forall k | 0 <= k < |ks|
        ensures out[k] == RekeyRecord(c, schema, newKeyField, updateRowKey, recs[ks[k]]).value.value
      {
        if k < |ks0| {
          assert ks[k] == ks0[k] && out[k] == rest[k];
          assert pre[ks0[k]] == recs[ks0[k]];
        } else {
          assert ks[k] == n && out[k] == one.value;
        }
      }
    }
  }

  /** Over a run that does not throw, every emitted record has a value and a key, with
      updateRowKey its ROWKEY column holds that key, and a run of tombstones emits
      nothing. */
  lemma RekeyedRecordsAreKeyed(c: Collaborators, schema: Schema, newKeyField: Field, updateRowKey: bool, recs: seq<Record>)
    ensures var r := RekeyRecords(c, schema, newKeyField, updateRowKey, recs);
            && (r.Ok? ==> forall k :: 0 <= k < |r.value| ==> r.value[k].value.Some? && r.value[k].key.Some?)
            && (r.Ok? && updateRowKey ==>
                  forall k :: 0 <= k < |r.value| ==>
                    0 <= c.rowkeyNameIndex < |r.value[k].value.value|
                    && r.value[k].value.value[c.rowkeyNameIndex] == r.value[k].key)
            && ((forall k :: 0 <= k < |recs| ==> recs[k].value.None?) ==> r == Ok([]))
  {
    RekeyRecordsListsSurvivors(c, schema, newKeyField, updateRowKey, recs);
  }

  /** Over a run that does not throw, a record comes out exactly when the filter passes it:
      its value is not null and its key column is not null. */
  lemma {:induction false} RekeyKeepsExactlyFilteredRecords(c: Collaborators, schema: Schema, newKeyField: Field, updateRowKey: bool, recs: seq<Record>)
    ensures RekeyRecords(c, schema, newKeyField, updateRowKey, recs).Ok? ==>
              var ks := Survivors(c, schema, newKeyField, updateRowKey, recs);
              forall j :: 0 <= j < |recs| ==> (j in ks <==> PassesFilter(c, schema, newKeyField, recs[j]))
  {
    SurvivorsComplete(c, schema, newKeyField, updateRowKey, recs);
  }

  // ---------------------------------------------------------------- into

  /** The positions below `n` that are not in `drop`, in increasing order. */
  function KeptIndices(n: nat, drop: set<int>): (ks: seq<nat>)
    ensures forall k :: 0 <= k < |ks| ==> ks[k] < n && ks[k] !in drop
  {
    if n == 0 then [] else KeptIndices(n - 1, drop) + (if n - 1 in drop then [] else [n - 1])
  }

  /** `KeptIndices` lists every kept position exactly once, in increasing order: it is
      the set of positions below `n` outside `drop`, sorted. */
  lemma {:induction false} KeptIndicesComplete(n: nat, drop: set<int>)
    ensures var ks := KeptIndices(n, drop);
            && (forall j :: 0 <= j < n && j !in drop ==> j in ks)
            && (forall a, b :: 0 <= a < b < |ks| ==> ks[a] < ks[b])
  {
    if n > 0 {
      KeptIndicesComplete(n - 1, drop);
    }
  }

  /** The columns of `cols` at positions `ks`, in that order. */
  function Pick(cols: Row, ks: seq<nat>): (r: Row)
    requires forall k :: 0 <= k < |ks| ==> ks[k] < |cols|
    ensures |r| == |ks| && forall k :: 0 <= k < |ks| ==> r[k] == cols[ks[k]]
  {
    seq(|ks|, k requires 0 <= k < |ks| => cols[ks[k]])
  }

  /** The mapper of `into(topic, serde, rowkeyIndexes)`: a null row stays null; any other
      row keeps exactly the columns whose position is not in `rowkeyIndexes`, in order. */
  method StripKeyColumns(row: Option<Row>, rowkeyIndexes: set<int>) returns (r: Option<Row>)
    ensures row.None? ==> r.None?
    ensures row.Some? ==> r.Some?
    ensures row.Some? ==>
              var ks := KeptIndices(|row.value|, rowkeyIndexes);
              |r.value| == |ks| && forall k :: 0 <= k < |ks| ==> r.value[k] == row.value[ks[k]]
  {
    if row.None? {
      return None;
    }
    var cols := row.value;
    var columns: Row := [];
    var i := 0;
    while i < |cols|
      invariant 0 <= i <= |cols|
      invariant columns == Pick(cols, KeptIndices(i, rowkeyIndexes))
    {
      ghost var before := KeptIndices(i, rowkeyIndexes);
      ghost var after := KeptIndices(i + 1, rowkeyIndexes);
      assert after == before + (if i in rowkeyIndexes then [] else [i]);
      if i !in rowkeyIndexes {
        assert Pick(cols, after) == Pick(cols, before) + [cols[i]];
        columns := columns + [cols[i]];
      } else {
        assert after == before;
      }
      i := i + 1;
    }
    return Some(columns);
  }

  /** Stripping no column leaves a row as it is. */
  lemma {:induction false} KeepAllIsIdentity(n: nat)
    ensures KeptIndices(n, {}) == seq(n, i => i)
  {
    if n > 0 {
      KeepAllIsIdentity(n - 1);
    }
  }
}

=== FILE: selection.dfy ===
/** `Selection`: the key field and output schema of a projection. */
module Selection {
  import opened Types
  import opened Collaborators

  /** Whether select expression `e` references the key field `key`. A dereference is
      matched on its whole text, a qualified name only on its last part; no other
      expression ever references the key. */
  predicate References(c: Collaborators, key: Field, e: Expr)
  {
    match e
    case Deref(_, _) => c.matchFieldName(key, c.exprText(e))
    case QName(q) => c.matchFieldName(key, Suffix(q))
    case Other(_) => false
  }

  /** The loop of `findKeyField` from position `i` on: the first item at or after `i`
      that references `key`, re-keyed under that item's output name and position. */
  function FirstReference(c: Collaborators, key: Field, items: seq<SelectItem>, i: nat): (r: Option<Field>)
    requires i <= |items|
    ensures r.None? <==> forall j :: i <= j < |items| ==> !References(c, key, items[j].expr)
    ensures r.Some? ==>
              exists j :: i <= j < |items|
                && References(c, key, items[j].expr)
                && (forall m :: i <= m < j ==> !References(c, key, items[m].expr))
                && r.value == Field(items[j].name, j, key.schema)
    decreases |items| - i
  {
    if i == |items| then None
    else if References(c, key, items[i].expr) then Some(Field(items[i].name, i, key.schema))
    else FirstReference(c, key, items, i + 1)
  }

  /** `findKeyField`: the key field of the projection of a node keyed by `keyField`.
      An absent key stays absent; a synthetic key (index -1) passes through unchanged;
      otherwise the first select item referencing the key becomes the key, under the
      item's own name and position and the old key's type; with no such item the
      projection has no key. */
  function FindKeyField(c: Collaborators, keyField: Option<Field>, items: seq<SelectItem>): (r: Option<Field>)
    ensures keyField.None? ==> r.None?
    ensures keyField.Some? && keyField.value.index == -1 ==> r == keyField
    ensures keyField.Some? && keyField.value.index != -1 ==>
              (r.None? <==> forall j :: 0 <= j < |items| ==> !References(c, keyField.value, items[j].expr))
    ensures keyField.Some? && keyField.value.index != -1 && r.Some? ==>
              exists j :: 0 <= j < |items|
                && References(c, keyField.value, items[j].expr)
                && (forall m :: 0 <= m < j ==> !References(c, keyField.value, items[m].expr))
                && r.value == Field(items[j].name, j, keyField.value.schema)
  {
    if keyField.None? then None
    else if keyField.value.index == -1 then keyField
    else FirstReference(c, keyField.value, items, 0)
  }

  /** The projection's key is the first referencing item: no earlier item references the
      key, so the index is the least one possible and the key is unique. */
  lemma {:induction false} FindKeyFieldIsFirst(c: Collaborators, key: Field, items: seq<SelectItem>, j: nat)
    requires key.index != -1
    requires j < |items| && References(c, key, items[j].expr)
    requires forall m :: 0 <= m < j ==> !References(c, key, items[m].expr)
    ensures FindKeyField(c, Some(key), items) == Some(Field(items[j].name, j, key.schema))
  {
    var r := FindKeyField(c, Some(key), items);
    assert r.Some?;
    var k :| 0 <= k < |items|
      && References(c, key, items[k].expr)
      && (forall m :: 0 <= m < k ==> !References(c, key, items[m].expr))
      && r.value == Field(items[k].name, k, key.schema);
    assert k == j;
  }

  /** Batch compilation of the select (or group-by) expressions against `schema`: the type
      of every expression, or the error of the first one that does not compile. */
  function CompileExpressions(c: Collaborators, schema: Schema, exprs: seq<Expr>): (r: Result<seq<SqlType>>)
    ensures r.Ok? <==> forall i :: 0 <= i < |exprs| ==> c.compile(schema, exprs[i]).Some?
    ensures r.Ok? ==> |r.value| == |exprs|
    ensures r.Ok? ==> forall i :: 0 <= i < |exprs| ==> Some(r.value[i]) == c.compile(schema, exprs[i])
    ensures r.Err? ==> exists i :: 0 <= i < |exprs| && c.compile(schema, exprs[i]).None?
                                   && (forall m :: 0 <= m < i ==> c.compile(schema, exprs[m]).Some?)
                                   && r.error == CompileError(exprs[i])
  {
    if |exprs| == 0 then Ok([])
    else
      match c.compile(schema, exprs[0])
      case None => Err(CompileError(exprs[0]))
      case Some(t) =>
        match CompileExpressions(c, schema, exprs[1..])
        case Err(e) => Err(e)
        case Ok(ts) => Ok([t] + ts)
  }

  /** The expressions of the select items, in order. */
  function Expressions(items: seq<SelectItem>): (es: seq<Expr>)
    ensures |es| == |items| && forall i :: 0 <= i < |items| ==> es[i] == items[i].expr
  {
    seq(|items|, i requires 0 <= i < |items| => items[i].expr)
  }

  /** `buildSchema`: one field per select item, in select order, named after the item,
      positioned at the item's index and typed by its compiled expression. */
  function BuildSchema(items: seq<SelectItem>, types: seq<SqlType>): (s: Schema)
    requires |types| == |items|
    ensures |s.fields| == |items|
    ensures forall i :: 0 <= i < |items| ==>
              s.fields[i].name == items[i].name && s.fields[i].index == i && s.fields[i].schema == types[i]
  {
    Schema(seq(|items|, i requires 0 <= i < |items| => Field(items[i].name, i, types[i])))
  }
}

=== FILE: types.dfy ===
/** Values, rows, fields, schemas and expressions that the plan-node logic works on. */
module Types {

  /** Java's nullable reference: `None` stands for `null`. */
  datatype Option<+T> = None | Some(value: T)

  /** Why building a node or processing a record aborts: the exceptions the code can raise. */
  datatype PlanError =
    | NullPointer(what: string)       // a method called on a null reference
    | IndexOutOfBounds(index: int)    // `List.get` / `List.set` outside the list
    | CompileError(expr: Expr)        // code generation rejected an expression

  /** Either a built value or the exception that stopped the build. */
  datatype Result<+T> = Ok(value: T) | Err(error: PlanError)

  /** A column value of a `GenericRow`. A column can hold any Java object; the key logic
      only copies values and renders them as text, so strings, integers and booleans are
      named and every other object (a double, a struct, ...) is an opaque handle. */
  datatype Value = Str(s: string) | Num(n: int) | Bool(b: bool) | Opaque(id: int)

  /** The columns of a `GenericRow`; any column may be null. */
  type Row = seq<Option<Value>>

  /** A record of a stream: its key and its (possibly null, i.e. tombstone) value. */
  datatype Record = Record(key: Option<Value>, value: Option<Row>)

  /** The connect type of a field. Only the optional string type is named by the code. */
  datatype SqlType = OptionalString | RequiredString | Int32 | Int64 | Float64 | Boolean | OtherType(name: string)

  /** A connect `Field`: name, position in its schema (-1 for a synthetic key) and type. */
  datatype Field = Field(name: string, index: int, schema: SqlType)

  /** A connect struct schema: its fields in column order. */
  datatype Schema = Schema(fields: seq<Field>)

  /** A dotted name such as `S.ID`; never empty. */
  type QualifiedName = parts: seq<string> | |parts| > 0 witness [""]

  /** The expressions the key logic distinguishes: a dereference `base.fieldName`, a
      qualified name reference, and any other expression (calls, arithmetic, literals). */
  datatype Expr =
    | Deref(base: Expr, fieldName: string)
    | QName(name: QualifiedName)
    | Other(text: string)

  /** A select item: the output column name and the expression computing it. */
  datatype SelectItem = SelectItem(name: string, expr: Expr)

  /** The last part of a qualified name (`QualifiedName.getSuffix`). */
  function Suffix(q: QualifiedName): (s: string)
    ensures s in q
  {
    q[|q| - 1]
  }

  /** The parts of a qualified name joined with '.' (`QualifiedName.toString`). */
  function Dotted(q: QualifiedName): (s: string)
    ensures |q| == 1 ==> s == q[0]
    ensures |q| > 1 ==> s == Dotted(q[..|q| - 1]) + "." + Suffix(q)
    ensures |q| > 1 ==> |s| > |Suffix(q)|
    decreases |q|
  {
    if |q| == 1 then q[0] else Dotted(q[..|q| - 1]) + "." + Suffix(q)
  }

  /** The dotted text starts with the first part and ends with the last part, and a
      qualified name has a '.' right before its last part. */
  lemma {:induction false} DottedEnds(q: QualifiedName)
    ensures var s := Dotted(q);
            && |q[0]| <= |s| && s[..|q[0]|] == q[0]
            && |Suffix(q)| <= |s| && s[|s| - |Suffix(q)|..] == Suffix(q)
            && (|q| > 1 ==> s[|s| - |Suffix(q)| - 1] == '.')
    decreases |q|
  {
    if |q| > 1 {
      var pre := q[..|q| - 1];
      DottedEnds(pre);
      assert pre[0] == q[0];
      var s := Dotted(q);
      var t := Dotted(pre);
      assert s == t + "." + Suffix(q);
      assert s[..|q[0]|] == t[..|q[0]|];
    }
  }

  /** `n` null columns. */
  function Nulls(n: nat): (r: Row)
    ensures |r| == n
    ensures forall i :: 0 <= i < n ==> r[i].None?
  {
    seq(n, _ => None)
  }
}

=== FILE: value_joiner.dfy ===
/** `KsqlValueJoiner`: the value-merge function shared by every join variant. */
module KsqlValueJoiner {
  import opened Types

  /** The columns a join side contributes: its own columns, or one null per field of its
      schema when the side is missing. */
  function Side(schema: Schema, row: Option<Row>): Row
  {
    if row.Some? then row.value else Nulls(|schema.fields|)
  }

  /** `apply(left, right)`: the left side's columns followed by the right side's. */
  function Apply(leftSchema: Schema, rightSchema: Schema, left: Option<Row>, right: Option<Row>): (r: Row)
    ensures |r| == |Side(leftSchema, left)| + |Side(rightSchema, right)|
    ensures left.Some? ==> r[..|left.value|] == left.value
    ensures left.None? ==> forall i :: 0 <= i < |leftSchema.fields| ==> r[i].None?
    ensures right.Some? ==> r[|r| - |right.value|..] == right.value
    ensures right.None? ==> forall i :: |r| - |rightSchema.fields| <= i < |r| ==> r[i].None?
  {
    Side(leftSchema, left) + Side(rightSchema, right)
  }

  /** Where the right side starts in a merged row. */
  function Split(leftSchema: Schema, left: Option<Row>): nat
  {
    if left.Some? then |left.value| else |leftSchema.fields|
  }

  /** Splitting a merged row at the left side's width gives back each side: the columns of
      a present side, and nulls for a missing one, as many as its schema has fields. */
  lemma ApplySplits(leftSchema: Schema, rightSchema: Schema, left: Option<Row>, right: Option<Row>)
    ensures var r := Apply(leftSchema, rightSchema, left, right);
            var k := Split(leftSchema, left);
            && k <= |r|
            && (left.Some? ==> r[..k] == left.value)
            && (left.None? ==> r[..k] == Nulls(|leftSchema.fields|))
            && (right.Some? ==> r[k..] == right.value)
            && (right.None? ==> r[k..] == Nulls(|rightSchema.fields|))
  {
    var r := Apply(leftSchema, rightSchema, left, right);
    var k := Split(leftSchema, left);
    assert r[..k] == Side(leftSchema, left);
    assert r[k..] == Side(rightSchema, right);
  }

  /** Left join with no match on the right: the left columns, then exactly one null per
      right-schema field. */
  lemma LeftPresentRightMissing(leftSchema: Schema, rightSchema: Schema, l: Row)
    ensures var r := Apply(leftSchema, rightSchema, Some(l), None);
            && |r| == |l| + |rightSchema.fields|
            && r[..|l|] == l
            && forall i :: |l| <= i < |r| ==> r[i].None?
  {
    ApplySplits(leftSchema, rightSchema, Some(l), None);
  }

  /** The mirrored case: a missing left side becomes one null per left-schema field, then
      the right columns follow. */
  lemma LeftMissingRightPresent(leftSchema: Schema, rightSchema: Schema, rr: Row)
    ensures var r := Apply(leftSchema, rightSchema, None, Some(rr));
            && |r| == |leftSchema.fields| + |rr|
            && r[|leftSchema.fields|..] == rr
            && forall i :: 0 <= i < |leftSchema.fields| ==> r[i].None?
  {
    ApplySplits(leftSchema, rightSchema, None, Some(rr));
  }

  /** Null filling treats the two sides alike: swapping the sides (and their schemas)
      of a one-sided join event rotates the merged row. */
  lemma NullFillIsSymmetric(leftSchema: Schema, rightSchema: Schema, row: Row)
    ensures Apply(leftSchema, rightSchema, Some(row), None)
         == Apply(rightSchema, leftSchema, None, Some(row))[|rightSchema.fields|..]
            + Apply(rightSchema, leftSchema, None, Some(row))[..|rightSchema.fields|]
  {
    LeftPresentRightMissing(leftSchema, rightSchema, row);
    LeftMissingRightPresent(rightSchema, leftSchema, row);
  }

  /** Both sides present: the two input rows can be read back from the merged row. */
  lemma BothPresentRoundTrip(leftSchema: Schema, rightSchema: Schema, l: Row, rr: Row)
    ensures var r := Apply(leftSchema, rightSchema, Some(l), Some(rr));
            r[..|l|] == l && r[|l|..] == rr
  {
    ApplySplits(leftSchema, rightSchema, Some(l), Some(rr));
  }
}
